=== FILE: README.md ===
# Skeleton cache and snapshot relevance of a game server, in Dafny

This project models four pieces of per-tick logic from a multiplayer game server (CoD4x):

- **Skeleton arena** (`SkelArena`). `SV_ResetSkeletonCache` and `SV_AllocSkelMemory` manage one static buffer as a bump allocator. A generation stamp (`sv.skelTimeStamp`) marks the current epoch. A reset advances the stamp, skipping 0, and rewinds the cursor (`sv.skelMemPos`). A request is rounded up to 16 bytes and carved off at the cursor. When the cursor would pass 0x3FFF0, the arena prints a warning (once per stamp value), starts a new epoch and serves the request at offset 0.
- **Pose-cache gate** (`PoseCache`). `SV_DObjCreateSkelForBone` and `SV_DObjCreateSkelForBones` handle an animated object (DObj).
  - If its skeleton was built under the current stamp, the gate answers from the object's up-to-date query.
  - Otherwise it allocates the object's skeleton size from the arena. It builds the skeleton under the stamp read after that allocation, which is a new stamp if the allocation rolled over, and answers false.
- **Snapshot relevance oracle** (`Snapshot`). `SV_inSnapshot` decides whether an entity goes into a client's snapshot, from:
  - entity flags;
  - the clusters the entity touches;
  - the observer cluster's PVS (potentially visible set) row;
  - the fog cutoff.

  `SV_inPVSIgnorePortals` tests one point against another's PVS row.
- **Bone lookup** (`XModelBones`). `XModelGetBoneIndex` searches a model's bone-name table.
- **Entity index arithmetic** (`GentityIndex`). `SV_NumForGentity` and `SV_GentityNum` convert between entity numbers and addresses.

State is an immutable record threaded through pure functions. The loops of the source are methods whose contracts relate them to declarative definitions. Collaborators whose code is not part of this model become fields of records:
- the DObj queries and `DObjGetAllocSkelSize` are fields of `DObjQueries`. The size query is keyed by the object's handle, because the size depends on the object's models and not on its skeleton;
- `CM_PointLeafnum`, `CM_LeafCluster`, `CM_ClusterPVS`, the fog distance and `BoxDistSqrdExceeds` are fields of `World`.

Behaviour of the code that a reader might not expect, and that the model keeps:
- **Fallback cluster scan** (src/sv_game.cpp:646-656). The code rejects only when the first set bit the scan meets is exactly `lastCluster`. A scan that runs past `lastCluster` without a hit accepts. So clusters `[5]`, `lastCluster` 8 and bits 5–8 clear gives *relevant* in the model (`Snapshot.FallbackWithNothingVisiblePasses`).
- **Missing PVS row.** Only `SV_inPVSIgnorePortals` checks for a null row (src/sv_game.cpp:104). `SV_inSnapshot` indexes the row unchecked (src/sv_game.cpp:637-652), so `Snapshot.InSnapshot` requires a row whenever the cluster stage is reached.
- **Overflow warning** (src/sv_game.cpp:150-155). The warning is keyed on the stamp before the reset. Every overflow moves to a stamp not yet warned about, so in practice it fires on every overflow, not once per tick (`SkelArena.AllocSkelMemory`).
- **Gate hit path** (src/sv_game.cpp:512-513 and 781-782). On a hit the gates return the up-to-date query's answer and nothing more. An object whose skeleton is current but whose bone is stale is never rebuilt there; the gate just answers false (`PoseCache.CreateSkelForBone`).

## Model

| member | source | states |
|---|---|---|
| SkelArena.NextStamp | src/sv_game.cpp:118-122 | the next stamp is never 0 and never the previous one; it is `s + 1`, except that 2^32 - 1 wraps to 1 |
| SkelArena.Reset | src/sv_game.cpp:116-125 | after a reset the cursor is 0, and the stamp is nonzero and differs from the old one; the warned stamp is untouched |
| SkelArena.StampAfterClosedForm | src/sv_game.cpp:118-122 | after k resets a nonzero stamp s becomes `(s - 1 + k) mod (2^32 - 1) + 1`, so stamps cycle through 1 .. 2^32 - 1 |
| SkelArena.StampCycle | src/sv_game.cpp:118-122 | a stamp recurs only after exactly 2^32 - 1 resets, so an old skeleton can look current again only after a full counter cycle |
| SkelArena.AlignSize | src/sv_game.cpp:134 | the rounded size is the least multiple of 16 that is at least the request |
| SkelArena.AllocSkelMemory | src/sv_game.cpp:127-160 | a request that fits is served at the old cursor and the cursor grows by the rounded size; otherwise exactly one rollover happens and the block is at offset 0 of the next stamp; the warning fires iff the warned stamp differs from the current stamp, which then becomes the warned stamp; offsets are 16-aligned and the cursor stays within 0x3FFF0 |
| SkelArena.OversizedRequestNeverFits | src/sv_game.cpp:134-148 | in unbounded arithmetic, a request whose rounded size exceeds 0x3FFF0 fits neither the current epoch nor a freshly reset one |
| SkelArena.AlignSize32 | src/sv_game.cpp:134 | the 32-bit rounding is a multiple of 16; it equals the unbounded rounding unless `size + 15` wraps, and then it is 0 |
| SkelArena.OversizedPassFits32 | src/sv_game.cpp:142-156 | for a rounded size above 0x3FFF0, the loop's exit test passes iff the 32-bit sum wraps to at most 0x3FFF0, and then the cursor moves backwards; it never passes from cursor 0, so without a wrap the loop resets and retries forever |
| SkelArena.NegativeSizeWrapsCursor | src/sv_game.cpp:134-148 | an `int` size of -256 arrives as 0xFFFFFF00, keeps that rounded size, and at cursor 0x100 wraps the cursor to 0 and exits on the first pass |
| SkelArena.AllocSkelMemoryLoop | src/sv_game.cpp:142-156 | the source's unbounded retry loop computes the same result as AllocSkelMemory in at most two passes, one more than the number of rollovers |
| SkelArena.Run | src/sv_game.cpp:116-160 | a session trace of ticks and requests keeps the arena valid and never decreases the epoch count |
| SkelArena.RunBlocksDisjoint | src/sv_game.cpp:132-148 | over any trace of ticks and requests, blocks of one epoch are pairwise disjoint, 16-aligned and inside the buffer |
| SkelArena.FillFromEmpty | src/sv_game.cpp:142-148 | from an empty epoch, up to fifteen 0x4000-byte requests are laid end to end from offset 0 with no rollover or warning |
| SkelArena.SixteenthRequestRollsOver | src/sv_game.cpp:142-156 | worked example: fifteen 0x4000 requests fit; the 16th rolls over once to offset 0 of the next stamp, warning iff not yet warned for the old stamp; the 17th is at 0x4000 |
| PoseCache.Rebuild | src/sv_game.cpp:515-518 | a miss allocates the object's skeleton size once, answers false and stamps the object with the stamp current after the allocation |
| PoseCache.CreateSkelForBone | src/sv_game.cpp:510-519 | a current object gets the bone query's answer with no allocation and no change; a stale one is rebuilt with exactly one allocation; either way the object leaves current for the arena's stamp |
| PoseCache.CreateSkelForBones | src/sv_game.cpp:779-788 | as CreateSkelForBone, with the hit answered by the part-bit-mask query |
| PoseCache.SecondCallIsFree | src/sv_game.cpp:510-519 | a second single-bone call in the same epoch allocates nothing and changes nothing |
| PoseCache.SecondMaskCallIsFree | src/sv_game.cpp:779-788 | a second part-bit call in the same epoch allocates nothing and changes nothing |
| PoseCache.ResetMakesStale | src/sv_game.cpp:510-519 | after a reset a previously current object is stale, and its next call allocates exactly once and answers false |
| PoseCache.RolloverInvalidatesOthers | src/sv_game.cpp:515-517 | a rebuild whose allocation rolls the arena over makes every other previously current object stale |
| PoseCache.GateAll | src/sv_game.cpp:510-519 | a run of gate calls over objects named by handle, each call seeing the object as earlier calls left it, keeps the arena valid, makes at most one allocation per call and no more rollovers than allocations, and leaves objects it does not name unchanged |
| PoseCache.StaleSplit | src/sv_game.cpp:512-518 | once the first named object is current, the stale objects of a run are that object (if it was stale) plus the stale objects of the rest, counted without overlap |
| PoseCache.GateAllWithoutRollover | src/sv_game.cpp:510-519 | in a run of gate calls without rollover, the stamp stays fixed, the allocations equal the number of distinct stale objects named (an object named twice is rebuilt at most once), and every named object ends current |
| Snapshot.InPvsIgnorePortals | src/sv_game.cpp:92-109 | false iff p1's cluster has a PVS row and p2's cluster bit in it is clear; a null row gives true |
| Snapshot.FindListedHit | src/sv_game.cpp:638-644 | the loop stops at the first listed cluster whose bit is set, iff one exists; with no hit, `l` is the last listed cluster |
| Snapshot.ScanForward | src/sv_game.cpp:651-652 | the scan stops at the first set bit in from .. last, or at last + 1 when there is none, or at once when from > last |
| Snapshot.ClusterStage | src/sv_game.cpp:639-656 | the stage passes iff a listed cluster is visible, or lastCluster is nonzero and the scan's first set bit is not exactly lastCluster |
| Snapshot.ClusterStageIntended | src/sv_game.cpp:646-656 | with the end test `l > lastCluster`, the stage passes iff a listed cluster is visible or some cluster from the last listed one up to lastCluster is visible |
| Snapshot.InSnapshot | src/sv_game.cpp:607-663 | precedence: unlinked gives 0; broadcast gives 1 (even with flag 0x1); flag 0x1 gives 0; flags 0x18 give 1; no clusters gives 0; then the cluster stage; then the fog cutoff (the negated box-distance test for a fog distance; 1 for `NoCutoff`, the intended reading of the sentinel test) |
| Snapshot.NoCutoffAgreesWithCutoff | src/sv_game.cpp:658-662 | relevance under a fog distance d and under "no cutoff" differ exactly when the entity reaches the fog stage, passes the cluster stage and its box lies beyond d |
| Snapshot.FallbackFindsLaterCluster | src/sv_game.cpp:646-656 | cluster 5 listed with its bit clear, lastCluster 8 and bit 7 set: the scan stops before lastCluster and the stage passes, as written and as intended |
| Snapshot.FallbackWithNothingVisiblePasses | src/sv_game.cpp:651-655 | cluster 5 listed, lastCluster 8, bits 5–8 clear: the stage passes as written, and the intended stage fails |
| Snapshot.VisibleLastClusterRejected | src/sv_game.cpp:651-655 | cluster 5 listed, lastCluster 8, bits 5–7 clear and bit 8 set: the stage fails as written, and the intended stage passes |
| Snapshot.AsWrittenVersusIntended | src/sv_game.cpp:646-656 | with no listed hit and a range to scan, the two end tests disagree exactly when the range has no set bit, or when its first set bit is lastCluster |
| Snapshot.ClusterStageMatchesPortalFree | src/sv_game.cpp:97-108 | for an entity listed only in p2's cluster with lastCluster 0, the cluster stage agrees with SV_inPVSIgnorePortals |
| XModelBones.StoredIndex | src/xmodel_utils.cpp:28 | the stored index is `position + offset` reduced modulo 256 |
| XModelBones.GetBoneIndex | src/xmodel_utils.cpp:8-30 | returns 1 iff some position in 0 .. numBones (inclusive) holds the name, and stores the lowest such position plus offset, truncated to 8 bits; otherwise returns 0 and leaves the index unchanged |
| XModelBones.MatchPastLastBone | src/xmodel_utils.cpp:21-29 | a one-bone model whose table holds the name at position 1 is reported found at position 1 |
| XModelBones.GetBoneIndexBounded | src/xmodel_utils.cpp:21-27 | the lookup bounded to 0 .. numBones - 1 succeeds iff one of the model's bones has the name, and returns the lowest one |
| GentityIndex.TruncDiv | src/sv_game.cpp:50 | C's signed division by a positive size: the quotient has the dividend's sign; a non-negative dividend lies in `[b*q, b*(q+1))` and a negative one in `(b*(q-1), b*q]`, so negative quotients round toward zero |
| GentityIndex.GentityNum | src/sv_game.cpp:55-61 | the address of entity `num` lies a whole number of entity sizes from the base, and SV_NumForGentity maps it back to `num`, for every number including negative ones |
| GentityIndex.NumForGentity | src/sv_game.cpp:47-53 | the number of an address is the byte distance from the base divided by the entity size, truncated toward zero |
| GentityIndex.GentityNumOfNumForGentity | src/sv_game.cpp:47-61 | an address survives address → number → address iff it lies a whole number of entity sizes from the base |

## Left out

- The pointer alignment of `g_sv_skel_memory_start` (src/sv_game.cpp:123). Blocks are offsets from the aligned start.
- SkelArena.AllocSkelMemory: the source's assertions (src/sv_game.cpp:132 and 137) become the requires `0 < size <= 0x3FFF0`, so no behaviour is promised for the inputs they exclude. The model rounds in unbounded integers. What the 32-bit code does with an excluded size, in a build where asserts are compiled out, is stated separately:
  - size 0 rounds to 0 and returns a zero-length block at the cursor;
  - a size above 0xFFFFFFF0 also rounds to 0 (`SkelArena.AlignSize32`);
  - for any other rounded size above 0x3FFF0 (for example an `int` skeleton size that is negative at line 516), the exit test at line 146 passes iff the 32-bit sum at line 145 wraps to at most 0x3FFF0. Then the block is returned and the cursor moves backwards (`SkelArena.NegativeSizeWrapsCursor`). Otherwise the `while (1)` loop (lines 142-156) resets and retries forever (`SkelArena.OversizedPassFits32`).
- SkelArena.OversizedPassFits32: the cursor is treated as unsigned. The declaration of `sv.skelMemPos` is not part of this model. If it is a signed `int`, a rounded size of 2^31 or more would also exit from an empty epoch with a negative cursor; that case is not modelled.
- SkelArena.AllocSkelMemoryLoop: its `decreases 2 - passes` holds only because of the size requires. The endless loop on an oversized request is described, not modelled.
- The warning text and the console channel. The model records only whether the warning fires.
- DObj internals (`DObjSkelIsBoneUpToDate`, `DObjSkelAreBonesUpToDate`, `DObjGetAllocSkelSize`, and the pose computation of `DObjCreateSkel`). Their code is not part of this model, so they are abstract queries. `DObjSkelExists` is modelled as stamp equality, and `DObjCreateSkel` as recording the stamp and buffer.
- PoseCache.CreateSkelForBones: the `int` answer of `DObjSkelAreBonesUpToDate` is modelled as a bool.
- `CM_PointLeafnum`, `CM_LeafCluster`, `CM_ClusterPVS`, `G_GetFogOpaqueDistSqrd` and `BoxDistSqrdExceeds` are external and abstract. Floating-point distances are not modelled.
- Snapshot.InSnapshot: the fog test (src/sv_game.cpp:658-662) compares the float `fogOpaqueDistSqrd` with the double literal `3.4028235e38`. No float equals that value; FLT_MAX as a double is 3.4028234663852886e38. So as written every fog value takes the box test, and the `return 1` at line 662 is unreachable. The model's `NoCutoff` is the evident intent of that comparison, not a value the code can produce. `Snapshot.NoCutoffAgreesWithCutoff` shows that a `Cutoff(d)` setting agrees with `NoCutoff` except for an entity that reaches the fog stage, passes the cluster stage and for which `BoxDistSqrdExceeds(…, d)` holds.
- Snapshot.InSnapshot: it requires the PVS row to cover every listed cluster and every cluster up to lastCluster. The code reads only the clusters up to the first hit, so this demands slightly more than the reads performed.
- The lookup of the entity by `iEntityNum` and `SV_SvEntityForGentity`'s bad-entity error. The entity record is passed directly.
- GentityIndex: addresses are unbounded integers with no 32-bit wrap. `SV_GameClientNum`, `SV_SvEntityForGentity` and `SV_GEntityForSvEntity` are not modelled.
- PoseCache.GateAll: a run of calls uses one bone index for all objects. It requires every named handle to be in the table with a skeleton size the arena accepts, which are the gate's own preconditions for each call.
- `SV_XModelDebugBoxesInternal` and `SV_EntityContact` are left out: they are floating-point geometry, debug drawing and collision traces.
- Game-VM lifecycle, cvars, gametype handling, console commands and configstrings are left out as glue and I/O (`SV_InitGameVM`, `SV_ShutdownGameProgs`, `SV_SetGametype`, `SV_SetMapCenter`, `SV_SetGameEndTime`, …).
- `SV_MapExists` is left out: it reads the file system.
- Client accessors and dispatch wrappers (`SV_GetGuid`, `SV_GetPlayerName`, `SV_GameSendServerCommand`, `SV_GameDropClient`, …) are left out as thin wrappers over client state.
- src/cscr_animtree.hpp and src/scr_vm_main.hpp hold declarations only.

## Findings

| source | as written | input that shows it | evidently intended | confidence | as-written member | corrected member |
|---|---|---|---|---|---|---|
| src/sv_game.cpp:651-655 | after the forward scan, `if (l == lastCluster) return 0` | clusters [5], lastCluster 8, bits 5–7 clear, bit 8 set: rejected although cluster 8 is visible. With bits 5–8 clear the entity is accepted | reject when the scan ran past lastCluster (`l > lastCluster`), i.e. accept iff some cluster from the last listed one up to lastCluster is visible | medium, not executed | Snapshot.ClusterStage (shown by Snapshot.VisibleLastClusterRejected) | Snapshot.ClusterStageIntended |
| src/xmodel_utils.cpp:21-27 | the loop compares `boneNames[numBones]` before the bound test stops it | numBones 1, table [7, 9], name 9: found at position 1, which is not one of the model's bones | search positions 0 .. numBones - 1 only | low, not executed | XModelBones.GetBoneIndex (shown by XModelBones.MatchPastLastBone) | XModelBones.GetBoneIndexBounded |

`Snapshot.InSnapshot` uses the as-written cluster stage, because it models what the server does. The corrected stage sits beside it, with its intended property proved. `Snapshot.AsWrittenVersusIntended` states exactly where the two differ.

=== FILE: gentity_index.dfy ===
/**
  Conversions between entity numbers and entity addresses
  (sv_game.cpp, SV_NumForGentity and SV_GentityNum). The game allocates
  entities of `gentitySize` bytes each from `base`; addresses are byte
  addresses.
*/
module GentityIndex {

  /**
    C's signed division by a positive divisor, which truncates toward zero:
    the quotient has the dividend's sign and is the multiple of `b` nearest
    zero, so a negative dividend rounds up rather than down.
  */
  function TruncDiv(a: int, b: int): (q: int)
    requires b > 0
    ensures a >= 0 ==> 0 <= q && b * q <= a < b * (q + 1)
    ensures a < 0 ==> q <= 0 && b * (q - 1) < a <= b * q
  {
    if a >= 0 then
      FloorDivBounds(a, b);
      a / b
    else
      FloorDivBounds(-a, b);
      Negated(b, (-a) / b);
      -((-a) / b)
  }

  /** Euclidean division of a non-negative dividend brackets it between consecutive multiples. */
  lemma FloorDivBounds(x: int, b: int)
    requires x >= 0 && b > 0
    ensures 0 <= x / b && b * (x / b) <= x < b * (x / b + 1)
  {
    assert b * (x / b) + x % b == x;
    Step(b, x / b);
  }

  /** The multiple after `b * p`. */
  lemma Step(b: int, p: int)
    ensures b * (p + 1) == b * p + b
  {
  }

  /** Negating the factor negates the multiple, and moves the bracket with it. */
  lemma Negated(b: int, p: int)
    ensures b * (-p) == -(b * p)
    ensures b * (-p - 1) == -(b * p) - b
  {
    Step(b, -p - 1);
  }

  /** C's division gives back the factor of an exact multiple, whatever its sign. */
  lemma TruncDivOfMultiple(size: int, n: int)
    requires size > 0
    ensures TruncDiv(size * n, size) == n
  {
    if n >= 0 {
      DivUnique(size * n, size, n);
    } else {
      assert -(size * n) == size * (-n);
      DivUnique(size * (-n), size, -n);
    }
  }

  /** An address a whole number of entities past `base` divides back to that number. */
  lemma MultipleRoundTrip(base: int, size: int, n: int)
    requires size > 0
    ensures (base + size * n - base) % size == 0
    ensures TruncDiv(base + size * n - base, size) == n
  {
    assert base + size * n - base == size * n;
    TruncDivOfMultiple(size, n);
    assert (size * n) % size == 0 by {
      DivUnique(size * n, size, n);
    }
  }

  /**
    SV_GentityNum: the address of entity `num`, which lies a whole number of
    entities past `base` and which SV_NumForGentity maps back to `num`.
  */
  function GentityNum(base: int, gentitySize: int, num: int): (addr: int)
    ensures gentitySize > 0 ==> (addr - base) % gentitySize == 0
    ensures gentitySize > 0 ==> NumForGentity(base, gentitySize, addr) == num
  {
    if gentitySize > 0 then
      MultipleRoundTrip(base, gentitySize, num);
      base + gentitySize * num
    else
      base + gentitySize * num
  }

  /** SV_NumForGentity: the entity number of an address, the byte distance divided with truncation. */
  function NumForGentity(base: int, gentitySize: int, addr: int): (num: int)
    requires gentitySize > 0
    ensures addr >= base ==> gentitySize * num <= addr - base < gentitySize * (num + 1)
    ensures addr < base ==> gentitySize * (num - 1) < addr - base <= gentitySize * num
  {
    TruncDiv(addr - base, gentitySize)
  }

  /** The only multiple of a positive size strictly between -size and size is 0. */
  lemma SmallMultipleIsZero(size: int, k: int)
    requires size > 0
    requires -size < size * k < size
    ensures k == 0
  {
  }

  /** A quotient is pinned down by the interval its dividend lies in. */
  lemma DivUnique(x: int, size: int, q: int)
    requires size > 0
    requires size * q <= x < size * q + size
    ensures x / size == q
  {
    var q' := x / size;
    assert x == size * q' + x % size;
    assert size * (q - q') == size * q - size * q';
    SmallMultipleIsZero(size, q - q');
  }

  /** An address survives the round trip through its number exactly when it is the start of an entity. */
  lemma GentityNumOfNumForGentity(base: int, gentitySize: int, addr: int)
    requires gentitySize > 0
    ensures GentityNum(base, gentitySize, NumForGentity(base, gentitySize, addr)) == addr
            <==> (addr - base) % gentitySize == 0
  {
    var d := addr - base;
    if d % gentitySize == 0 {
      assert d == gentitySize * (d / gentitySize);
      assert GentityNum(base, gentitySize, d / gentitySize) == addr;
    }
  }
}

=== FILE: int_types.dfy ===
/** Fixed-width unsigned integer types of the C source, as ranges of `int`. */
module IntTypes {

  type u8 = x: int | 0 <= x < 0x100
  type u16 = x: int | 0 <= x < 0x1_0000
  type u32 = x: int | 0 <= x < 0x1_0000_0000

  /** The number of values of a 32-bit unsigned integer. */
  const U32Modulus: int := 0x1_0000_0000
}

=== FILE: pose_cache.dfy ===
/**
  The server's pose-cache gate (sv_game.cpp, SV_DObjCreateSkelForBone and
  SV_DObjCreateSkelForBones): an animated object keeps the skeleton it built
  in the current epoch of the skeleton arena; a stale object gets a fresh
  block from the arena and is restamped.
*/
module PoseCache {
  import opened Wrappers
  import opened IntTypes
  import opened SkelArena

  /**
    The part of an animated object (DObj) the gate touches: the stamp of the
    epoch its skeleton was built in and the arena offset of that skeleton.
    `handle` identifies the rest of the object, which the gate leaves alone.
  */
  datatype DObj = DObj(handle: nat, skelStamp: u32, skelBuffer: nat)

  /**
    Queries answered by the animation system, whose code is not part of this
    model: whether one bone, or every bone of a part-bit mask, is up to date
    in the object's skeleton (DObjSkelIsBoneUpToDate,
    DObjSkelAreBonesUpToDate) and the bytes a skeleton needs
    (DObjGetAllocSkelSize). The size depends on the object's models, which
    the handle identifies, not on its current skeleton.
  */
  datatype DObjQueries = DObjQueries(
    boneUpToDate: (DObj, int) -> bool,
    bonesUpToDate: (DObj, seq<bv32>) -> bool,
    allocSkelSize: nat -> int)

  /** DObjSkelExists: the object holds a skeleton built under `stamp`. */
  predicate SkelExists(obj: DObj, stamp: u32) {
    obj.skelStamp == stamp
  }

  /** DObjCreateSkel, as far as the gate is concerned: the object now owns `buffer`, built under `stamp`. */
  function CreateSkel(obj: DObj, buffer: nat, stamp: u32): (r: DObj)
    ensures SkelExists(r, stamp)
    ensures r.handle == obj.handle && r.skelBuffer == buffer
  {
    obj.(skelStamp := stamp, skelBuffer := buffer)
  }

  /**
    The outcome of one gate call: its answer, the object and the arena
    afterwards, and the arena allocation it made, if any.
  */
  datatype GateResult = GateResult(upToDate: bool, obj: DObj, arena: Arena, allocation: Option<Allocation>)

  /** The gate may be entered: a stale object must ask for a block the arena accepts. */
  predicate CanEnter(a: Arena, obj: DObj, q: DObjQueries) {
    a.Valid() && (SkelExists(obj, a.stamp) || 0 < q.allocSkelSize(obj.handle) <= Capacity)
  }

  /**
    The miss path shared by both gates: allocate the object's skeleton size,
    then build the skeleton under the stamp read after the allocation, which
    differs from the one before if the allocation rolled the arena over.
  */
  function Rebuild(a: Arena, obj: DObj, q: DObjQueries): (r: GateResult)
    requires a.Valid()
    requires 0 < q.allocSkelSize(obj.handle) <= Capacity
    ensures r.arena.Valid()
    ensures !r.upToDate
    ensures r.allocation == Some(AllocSkelMemory(a, q.allocSkelSize(obj.handle)))
    ensures r.arena == r.allocation.value.arena
    ensures SkelExists(r.obj, r.arena.stamp)
    ensures r.obj.handle == obj.handle && r.obj.skelBuffer == r.allocation.value.offset
  {
    var al := AllocSkelMemory(a, q.allocSkelSize(obj.handle));
    GateResult(false, CreateSkel(obj, al.offset, al.arena.stamp), al.arena, Some(al))
  }

  /**
    SV_DObjCreateSkelForBone: a current object answers whether the bone is up
    to date and costs nothing; a stale one is rebuilt and the answer is false.
    Either way the object leaves the gate current for the arena's stamp.
  */
  function CreateSkelForBone(a: Arena, obj: DObj, boneIndex: int, q: DObjQueries): (r: GateResult)
    requires CanEnter(a, obj, q)
    ensures r.arena.Valid()
    ensures SkelExists(r.obj, r.arena.stamp)
    ensures r.allocation.None? <==> SkelExists(obj, a.stamp)
    ensures SkelExists(obj, a.stamp) ==> r == GateResult(q.boneUpToDate(obj, boneIndex), obj, a, None)
    ensures !SkelExists(obj, a.stamp) ==>
              && !r.upToDate
              && r.allocation == Some(AllocSkelMemory(a, q.allocSkelSize(obj.handle)))
              && r.arena == r.allocation.value.arena
              && r.obj == DObj(obj.handle, r.arena.stamp, r.allocation.value.offset)
  {
    if SkelExists(obj, a.stamp) then GateResult(q.boneUpToDate(obj, boneIndex), obj, a, None)
    else Rebuild(a, obj, q)
  }

  /**
    SV_DObjCreateSkelForBones: as CreateSkelForBone, with the hit answered by
    whether every bone of the part-bit mask is up to date.
  */
  function CreateSkelForBones(a: Arena, obj: DObj, partBits: seq<bv32>, q: DObjQueries): (r: GateResult)
    requires CanEnter(a, obj, q)
    ensures r.arena.Valid()
    ensures SkelExists(r.obj, r.arena.stamp)
    ensures r.allocation.None? <==> SkelExists(obj, a.stamp)
    ensures SkelExists(obj, a.stamp) ==> r == GateResult(q.bonesUpToDate(obj, partBits), obj, a, None)
    ensures !SkelExists(obj, a.stamp) ==>
              && !r.upToDate
              && r.allocation == Some(AllocSkelMemory(a, q.allocSkelSize(obj.handle)))
              && r.arena == r.allocation.value.arena
              && r.obj == DObj(obj.handle, r.arena.stamp, r.allocation.value.offset)
  {
    if SkelExists(obj, a.stamp) then GateResult(q.bonesUpToDate(obj, partBits), obj, a, None)
    else Rebuild(a, obj, q)
  }

  /**
    Asking twice in one epoch: the second call, for any bone, allocates
    nothing, leaves object and arena as the first call left them and answers
    from the up-to-date query.
  */
  lemma SecondCallIsFree(a: Arena, obj: DObj, bone1: int, bone2: int, q: DObjQueries)
    requires CanEnter(a, obj, q)
    ensures var r1 := CreateSkelForBone(a, obj, bone1, q);
            CanEnter(r1.arena, r1.obj, q) &&
            CreateSkelForBone(r1.arena, r1.obj, bone2, q) == GateResult(q.boneUpToDate(r1.obj, bone2), r1.obj, r1.arena, None)
  {
  }

  /** The same for the part-bit gate. */
  lemma SecondMaskCallIsFree(a: Arena, obj: DObj, bits1: seq<bv32>, bits2: seq<bv32>, q: DObjQueries)
    requires CanEnter(a, obj, q)
    ensures var r1 := CreateSkelForBones(a, obj, bits1, q);
            CanEnter(r1.arena, r1.obj, q) &&
            CreateSkelForBones(r1.arena, r1.obj, bits2, q) == GateResult(q.bonesUpToDate(r1.obj, bits2), r1.obj, r1.arena, None)
  {
  }

  /**
    After the tick driver starts a new epoch, an object that was current is
    stale: its next gate call rebuilds it with exactly one allocation.
  */
  lemma ResetMakesStale(a: Arena, obj: DObj, bone: int, q: DObjQueries)
    requires a.Valid()
    requires SkelExists(obj, a.stamp)
    requires 0 < q.allocSkelSize(obj.handle) <= Capacity
    ensures !SkelExists(obj, Reset(a).stamp)
    ensures CreateSkelForBone(Reset(a), obj, bone, q).allocation == Some(AllocSkelMemory(Reset(a), q.allocSkelSize(obj.handle)))
    ensures !CreateSkelForBone(Reset(a), obj, bone, q).upToDate
  {
  }

  /**
    A rebuild that rolls the arena over invalidates every other object that
    was current before it: they rebuild again on their next call.
  */
  lemma RolloverInvalidatesOthers(a: Arena, obj: DObj, other: DObj, bone: int, q: DObjQueries)
    requires CanEnter(a, obj, q)
    requires SkelExists(other, a.stamp)
    requires CreateSkelForBone(a, obj, bone, q).allocation.Some?
    requires CreateSkelForBone(a, obj, bone, q).allocation.value.rollovers == 1
    ensures !SkelExists(other, CreateSkelForBone(a, obj, bone, q).arena.stamp)
  {
  }

  /**
    The outcome of a run of gate calls: the arena, the object table
    afterwards (objects by handle), allocations made and arena rollovers.
  */
  datatype GateRun = GateRun(arena: Arena, table: map<nat, DObj>, allocations: nat, rollovers: nat)

  /** The rollovers an allocation caused, or none when the gate did not allocate. */
  function RolloversOf(al: Option<Allocation>): nat {
    if al.Some? then al.value.rollovers else 0
  }

  /** Every object of the table is filed under its own handle. */
  predicate TableWellFormed(table: map<nat, DObj>) {
    forall h :: h in table ==> table[h].handle == h
  }

  /** Every handle of the run names an object whose skeleton the arena can hold. */
  predicate RunnableHandles(table: map<nat, DObj>, handles: seq<nat>, q: DObjQueries) {
    forall i :: 0 <= i < |handles| ==> handles[i] in table && 0 < q.allocSkelSize(handles[i]) <= Capacity
  }

  /**
    Gate calls on the objects named by `handles`, in order. Each call sees
    the arena the previous one left and the object as earlier calls left it,
    so an object named twice is the same DObj both times.
  */
  function GateAll(a: Arena, table: map<nat, DObj>, handles: seq<nat>, bone: int, q: DObjQueries): (r: GateRun)
    requires a.Valid()
    requires TableWellFormed(table)
    requires RunnableHandles(table, handles, q)
    ensures r.arena.Valid()
    ensures r.table.Keys == table.Keys
    ensures TableWellFormed(r.table)
    ensures forall h :: h in table && h !in handles ==> r.table[h] == table[h]
    ensures r.rollovers <= r.allocations <= |handles|
    decreases |handles|
  {
    if |handles| == 0 then GateRun(a, table, 0, 0)
    else
      var h := handles[0];
      var g := CreateSkelForBone(a, table[h], bone, q);
      var table' := table[h := g.obj];
      assert RunnableHandles(table', handles[1..], q) by {
        forall i | 0 <= i < |handles[1..]| ensures handles[1..][i] in table' {
          assert handles[1..][i] == handles[i + 1];
        }
      }
      var rest := GateAll(g.arena, table', handles[1..], bone, q);
      GateRun(rest.arena, rest.table,
              (if g.allocation.Some? then 1 else 0) + rest.allocations,
              RolloversOf(g.allocation) + rest.rollovers)
  }

  /** The distinct objects named in `handles` that are stale under `stamp`. */
  ghost function Stale(table: map<nat, DObj>, handles: seq<nat>, stamp: u32): set<nat> {
    set h | h in handles && h in table && !SkelExists(table[h], stamp)
  }

  /**
    After the first named object is made current, the stale set of the run
    splits into that object, if it was stale, and the stale set of the rest.
  */
  lemma StaleSplit(table: map<nat, DObj>, handles: seq<nat>, obj: DObj, stamp: u32)
    requires |handles| > 0 && handles[0] in table
    requires SkelExists(obj, stamp)
    ensures var first: set<nat> := if SkelExists(table[handles[0]], stamp) then {} else {handles[0]};
            && Stale(table, handles, stamp) == first + Stale(table[handles[0] := obj], handles[1..], stamp)
            && |Stale(table, handles, stamp)| == |first| + |Stale(table[handles[0] := obj], handles[1..], stamp)|
  {
    var h := handles[0];
    var table' := table[h := obj];
    assert handles == [h] + handles[1..];
    var first: set<nat> := if SkelExists(table[h], stamp) then {} else {h};
    assert h !in Stale(table', handles[1..], stamp);
    assert Stale(table, handles, stamp) == first + Stale(table', handles[1..], stamp);
  }

  /**
    When no call in the run rolls the arena over, the stamp never moves,
    the run allocates exactly once per distinct stale object (an object named
    again is current by then), and every named object ends current under the
    stamp the run started with.
  */
  lemma {:induction false} GateAllWithoutRollover(a: Arena, table: map<nat, DObj>, handles: seq<nat>, bone: int, q: DObjQueries)
    requires a.Valid()
    requires TableWellFormed(table)
    requires RunnableHandles(table, handles, q)
    requires GateAll(a, table, handles, bone, q).rollovers == 0
    ensures GateAll(a, table, handles, bone, q).arena.stamp == a.stamp
    ensures GateAll(a, table, handles, bone, q).allocations == |Stale(table, handles, a.stamp)|
    ensures forall h :: h in handles ==> SkelExists(GateAll(a, table, handles, bone, q).table[h], a.stamp)
    decreases |handles|
  {
    if |handles| > 0 {
      var h := handles[0];
      var g := CreateSkelForBone(a, table[h], bone, q);
      var table' := table[h := g.obj];
      assert RunnableHandles(table', handles[1..], q) by {
        forall i | 0 <= i < |handles[1..]| ensures handles[1..][i] in table' {
          assert handles[1..][i] == handles[i + 1];
        }
      }
      var rest := GateAll(g.arena, table', handles[1..], bone, q);
      assert GateAll(a, table, handles, bone, q)
          == GateRun(rest.arena, rest.table,
                     (if g.allocation.Some? then 1 else 0) + rest.allocations,
                     RolloversOf(g.allocation) + rest.rollovers);
      assert g.arena.stamp == a.stamp && SkelExists(g.obj, a.stamp);
      GateAllWithoutRollover(g.arena, table', handles[1..], bone, q);
      StaleSplit(table, handles, g.obj, a.stamp);
      assert handles == [h] + handles[1..];
    }
  }
}

=== FILE: skel_arena.dfy ===
/**
  The server's transient skeleton memory: a bump allocator over a fixed
  buffer whose contents are invalidated wholesale by advancing a generation
  stamp (sv_game.cpp, SV_ResetSkeletonCache and SV_AllocSkelMemory).

  Offsets are measured from the aligned start of the buffer; the pointer
  alignment of the buffer itself is not modelled.
*/
module SkelArena {
  import opened IntTypes

  /** SKEL_MEM_ALIGNMENT */
  const Alignment: nat := 0x10

  /** Size of the static buffer g_sv_skel_memory. */
  const BufferSize: nat := 262144

  /** Usable bytes per epoch: the buffer less one alignment slot, 0x3FFF0. */
  const Capacity: nat := BufferSize - Alignment

  /**
    The arena's state: the generation stamp (sv.skelTimeStamp), the bytes
    consumed in the current epoch (sv.skelMemPos) and the stamp at which the
    overflow warning was last printed (the function-static warnCount_2).
  */
  datatype Arena = Arena(stamp: u32, cursor: nat, lastWarned: u32) {
    /** Between calls the cursor lies inside the buffer on a 16-byte boundary. */
    predicate Valid() {
      cursor <= Capacity && cursor % Alignment == 0
    }
  }

  /** One 32-bit wrapping increment. */
  function Inc32(x: u32): u32 {
    (x + 1) % U32Modulus
  }

  /**
    The stamp that follows `s`: the counter is incremented, and incremented
    once more when it wrapped to 0, so 0 keeps meaning "never built".
  */
  function NextStamp(s: u32): (r: u32)
    ensures r != 0
    ensures r != s
    ensures s < U32Modulus - 1 ==> r == s + 1
    ensures s == U32Modulus - 1 ==> r == 1
  {
    var t := Inc32(s);
    if t == 0 then Inc32(t) else t
  }

  /** SV_ResetSkeletonCache: start a new epoch. */
  function Reset(a: Arena): (r: Arena)
    ensures r.Valid()
    ensures r.cursor == 0
    ensures r.stamp != 0 && r.stamp != a.stamp
    ensures r.lastWarned == a.lastWarned
  {
    a.(stamp := NextStamp(a.stamp), cursor := 0)
  }

  /** The request size rounded up to the allocation granularity. */
  function AlignSize(size: nat): (r: nat)
    ensures r % Alignment == 0
    ensures size <= r < size + Alignment
  {
    (size + Alignment - 1) / Alignment * Alignment
  }

  /**
    The outcome of one SV_AllocSkelMemory call: the block's offset, the
    arena afterwards, whether the overflow warning was printed and how many
    times the arena rolled over to a new epoch while serving the request.
  */
  datatype Allocation = Allocation(offset: nat, arena: Arena, warned: bool, rollovers: nat)

  /** The request fits behind the cursor of the current epoch. */
  predicate Fits(a: Arena, size: nat) {
    a.cursor + AlignSize(size) <= Capacity
  }

  /**
    SV_AllocSkelMemory. A request that fits is carved off at the cursor;
    otherwise the warning is printed unless it was already printed for this
    stamp, a new epoch begins and the block is carved off at offset 0.
  */
  function AllocSkelMemory(a: Arena, size: nat): (r: Allocation)
    requires a.Valid()
    requires 0 < size <= Capacity
    ensures r.arena.Valid()
    ensures r.offset % Alignment == 0
    ensures r.offset + AlignSize(size) == r.arena.cursor
    ensures r.rollovers == 0 <==> Fits(a, size)
    ensures Fits(a, size) ==>
              && r.offset == a.cursor
              && r.arena == a.(cursor := a.cursor + AlignSize(size))
              && !r.warned
    ensures !Fits(a, size) ==>
              && r.rollovers == 1
              && r.offset == 0
              && r.arena.stamp == NextStamp(a.stamp)
              && r.arena.lastWarned == a.stamp
              && (r.warned <==> a.lastWarned != a.stamp)
    // an overflow always moves to a stamp not yet warned about
    ensures !Fits(a, size) ==> r.arena.lastWarned != r.arena.stamp
  {
    var sz := AlignSize(size);
    if a.cursor + sz <= Capacity then
      Allocation(a.cursor, a.(cursor := a.cursor + sz), false, 0)
    else
      var renewed := Reset(a.(lastWarned := a.stamp));
      Allocation(0, renewed.(cursor := sz), a.lastWarned != a.stamp, 1)
  }

  /**
    SV_AllocSkelMemory as the source writes it: an unbounded loop that
    advances the cursor, leaves when the cursor is still inside the buffer,
    and otherwise warns (once per stamp), resets and tries again. It agrees
    with AllocSkelMemory and never runs more than two passes.
  */
  method AllocSkelMemoryLoop(a: Arena, size: nat) returns (r: Allocation, passes: nat)
    requires a.Valid()
    requires 0 < size <= Capacity
    ensures r == AllocSkelMemory(a, size)
    ensures 1 <= passes <= 2
    ensures passes == r.rollovers + 1
  {
    var sz := AlignSize(size);
    var cur := a;
    var warned := false;
    var offset := 0;
    passes := 0;
    while true
      invariant passes <= 1
      invariant passes == 0 ==> cur == a && !warned
      invariant passes == 1 ==> !Fits(a, size)
      invariant passes == 1 ==> cur == Reset(a.(lastWarned := a.stamp))
      invariant passes == 1 ==> (warned <==> a.lastWarned != a.stamp)
      decreases 2 - passes
    {
      offset := cur.cursor;
      passes := passes + 1;
      cur := cur.(cursor := cur.cursor + sz);
      if cur.cursor <= Capacity {
        break;
      }
      if cur.lastWarned != cur.stamp {
        cur := cur.(lastWarned := cur.stamp);
        warned := true;
      }
      cur := Reset(cur);
    }
    r := Allocation(offset, cur, warned, passes - 1);
  }

  /**
    In unbounded arithmetic, a request whose rounded size exceeds the
    capacity fits neither the current epoch nor a freshly reset one. Whether
    the source's loop then spins depends on its 32-bit sum; see
    OversizedPassFits32.
  */
  lemma OversizedRequestNeverFits(a: Arena, size: nat)
    requires Capacity < AlignSize(size)
    ensures !Fits(a, size)
    ensures !Fits(Reset(a), size)
  {
  }

  // ---------------------------------------------------------------------
  // A request the assertions would refuse, in the source's 32-bit arithmetic

  /**
    The rounding `(size + 15) & 0xFFFFFFF0` in 32-bit unsigned arithmetic.
    It agrees with AlignSize unless `size + 15` wraps, and then the rounded
    size is 0.
  */
  function AlignSize32(size: u32): (r: u32)
    ensures r % Alignment == 0
    ensures size + 15 < U32Modulus ==> r == AlignSize(size)
    ensures size + 15 >= U32Modulus ==> r == 0
  {
    (size + 15) % U32Modulus / Alignment * Alignment
  }

  /** The loop's exit test: the cursor plus the rounded size, summed in 32 bits, is within the capacity. */
  predicate PassFits32(cursor: nat, rounded: u32) {
    (cursor + rounded) % U32Modulus <= Capacity
  }

  /**
    A pass with a rounded size above the capacity exits the loop exactly
    when the 32-bit sum wraps to at most the capacity. Without a wrap the
    test fails at every cursor, including the 0 a reset leaves, so the loop
    resets and retries forever. With a wrap the block is returned and the
    cursor moves backwards.
  */
  lemma OversizedPassFits32(cursor: nat, rounded: u32)
    requires cursor <= Capacity && Capacity < rounded
    ensures PassFits32(cursor, rounded) <==> U32Modulus <= cursor + rounded <= U32Modulus + Capacity
    ensures PassFits32(cursor, rounded) ==> (cursor + rounded) % U32Modulus < cursor
    ensures !PassFits32(0, rounded)
  {
    assert cursor + rounded < 2 * U32Modulus;
    if cursor + rounded >= U32Modulus {
      assert (cursor + rounded) % U32Modulus == cursor + rounded - U32Modulus;
    }
  }

  /**
    Worked example: an `int` size of -256 reaches the allocator as
    0xFFFFFF00. The rounding keeps it, and at cursor 0x100 the sum wraps to
    0, so the loop exits on its first pass and rewinds the cursor to 0.
  */
  lemma NegativeSizeWrapsCursor()
    ensures AlignSize32(0xFFFFFF00) == 0xFFFFFF00
    ensures PassFits32(0x100, AlignSize32(0xFFFFFF00))
    ensures (0x100 + AlignSize32(0xFFFFFF00)) % U32Modulus == 0
  {
  }

  // ---------------------------------------------------------------------
  // Stamp cycle

  /** The stamp after `k` resets starting from stamp `s`. */
  function StampAfter(s: u32, k: nat): u32
    decreases k
  {
    if k == 0 then s else NextStamp(StampAfter(s, k - 1))
  }

  /** Number of distinct nonzero stamps; the length of the stamp cycle. */
  const StampPeriod: nat := U32Modulus - 1

  /** Incrementing a residue modulo the stamp period. */
  lemma ModSuccessor(x: nat)
    ensures (x + 1) % StampPeriod == if x % StampPeriod == StampPeriod - 1 then 0 else x % StampPeriod + 1
  {
  }

  /** Nonzero stamps advance cyclically through 1 .. 2^32 - 1. */
  lemma {:induction false} StampAfterClosedForm(s: u32, k: nat)
    requires s != 0
    ensures StampAfter(s, k) == (s - 1 + k) % StampPeriod + 1
    decreases k
  {
    if k > 0 {
      StampAfterClosedForm(s, k - 1);
      ModSuccessor(s - 1 + k - 1);
    }
  }

  /**
    A stamp is not seen again until 2^32 - 1 further resets have passed, and
    after exactly that many it comes back: an object stamped in one epoch is
    taken for current again only after a full cycle of the counter.
  */
  lemma StampCycle(s: u32, k: nat)
    requires s != 0
    ensures 0 < k < StampPeriod ==> StampAfter(s, k) != s
    ensures StampAfter(s, StampPeriod) == s
  {
    StampAfterClosedForm(s, k);
    StampAfterClosedForm(s, StampPeriod);
  }

  // ---------------------------------------------------------------------
  // Traces of ticks and requests

  /** What the arena sees during a session: a tick's reset, or a request. */
  datatype Event = Tick | Request(size: nat)

  /**
    A block handed out by the arena. `epoch` counts the resets (ticks and
    rollovers) that happened before the block was issued, so blocks of one
    epoch share it even when the 32-bit stamp has cycled.
  */
  datatype Block = Block(epoch: nat, offset: nat, size: nat)

  /** The arena after a trace, the epoch count, the blocks in issue order and the warnings printed. */
  datatype Trace = Trace(arena: Arena, epoch: nat, blocks: seq<Block>, warnings: nat)

  /** Every request in the trace is one the allocator accepts. */
  predicate WellFormed(evs: seq<Event>) {
    forall i :: 0 <= i < |evs| ==> evs[i].Request? ==> 0 < evs[i].size <= Capacity
  }

  /** Dropping the first event keeps a trace well formed. */
  lemma WellFormedTail(evs: seq<Event>)
    requires |evs| > 0 && WellFormed(evs)
    ensures WellFormed(evs[1..])
  {
  }

  /** One request served inside a trace: the block it yields and the state that follows. */
  function Serve(a: Arena, epoch: nat, size: nat): (r: (Block, Allocation))
    requires a.Valid()
    requires 0 < size <= Capacity
  {
    var al := AllocSkelMemory(a, size);
    (Block(epoch + al.rollovers, al.offset, AlignSize(size)), al)
  }

  /** Replays a trace of events from arena `a` whose epoch count is `epoch`. */
  function Run(a: Arena, epoch: nat, evs: seq<Event>): (t: Trace)
    requires a.Valid()
    requires WellFormed(evs)
    ensures t.arena.Valid()
    ensures epoch <= t.epoch
    decreases |evs|
  {
    if |evs| == 0 then Trace(a, epoch, [], 0)
    else
      WellFormedTail(evs);
      if evs[0].Tick? then Run(Reset(a), epoch + 1, evs[1..])
      else
        var (b, al) := Serve(a, epoch, evs[0].size);
        var rest := Run(al.arena, b.epoch, evs[1..]);
        Trace(rest.arena, rest.epoch, [b] + rest.blocks, (if al.warned then 1 else 0) + rest.warnings)
  }

  /** Every block lies inside the buffer, on a 16-byte boundary, in an epoch of the trace. */
  ghost predicate BlocksInBuffer(bs: seq<Block>, from: nat, to: nat) {
    forall i :: 0 <= i < |bs| ==>
      && bs[i].offset % Alignment == 0
      && bs[i].offset + bs[i].size <= Capacity
      && from <= bs[i].epoch <= to
  }

  /** Blocks issued in the same epoch never overlap: each ends before any later one of that epoch begins. */
  ghost predicate DisjointPerEpoch(bs: seq<Block>) {
    forall i, j :: 0 <= i < j < |bs| && bs[i].epoch == bs[j].epoch ==>
      bs[i].offset + bs[i].size <= bs[j].offset
  }

  /** Blocks of epoch `epoch` start at or after `cursor`. */
  ghost predicate StartFrom(bs: seq<Block>, epoch: nat, cursor: nat) {
    forall i :: 0 <= i < |bs| && bs[i].epoch == epoch ==> cursor <= bs[i].offset
  }

  /** Blocks of epoch `epoch` end at or before `cursor`. */
  ghost predicate EndBy(bs: seq<Block>, epoch: nat, cursor: nat) {
    forall i :: 0 <= i < |bs| && bs[i].epoch == epoch ==> bs[i].offset + bs[i].size <= cursor
  }

  /**
    What a replay guarantees: blocks aligned and inside the buffer, pairwise
    disjoint within each epoch, those of the first epoch beyond the starting
    cursor and those of the last epoch below the final cursor.
  */
  ghost predicate TraceSound(a: Arena, epoch: nat, t: Trace) {
    && BlocksInBuffer(t.blocks, epoch, t.epoch)
    && DisjointPerEpoch(t.blocks)
    && StartFrom(t.blocks, epoch, a.cursor)
    && EndBy(t.blocks, t.epoch, t.arena.cursor)
    && (t.epoch == epoch ==> a.cursor <= t.arena.cursor)
  }

  /** Prepending the block of one served request to a sound replay keeps it sound. */
  lemma ServeKeepsSound(a: Arena, epoch: nat, size: nat, rest: Trace)
    requires a.Valid()
    requires 0 < size <= Capacity
    requires TraceSound(Serve(a, epoch, size).1.arena, Serve(a, epoch, size).0.epoch, rest)
    requires Serve(a, epoch, size).0.epoch <= rest.epoch
    ensures TraceSound(a, epoch, Trace(rest.arena, rest.epoch, [Serve(a, epoch, size).0] + rest.blocks, 0))
  {
  }

  /**
    Within every epoch the blocks the arena hands out are pairwise disjoint,
    aligned and inside the buffer; blocks of the epoch the trace starts in lie
    beyond the cursor it starts with, and blocks of the final epoch end at or
    before the final cursor.
  */
  lemma {:induction false} RunBlocksDisjoint(a: Arena, epoch: nat, evs: seq<Event>)
    requires a.Valid()
    requires WellFormed(evs)
    ensures TraceSound(a, epoch, Run(a, epoch, evs))
    decreases |evs|
  {
    if |evs| > 0 {
      WellFormedTail(evs);
      if evs[0].Tick? {
        RunBlocksDisjoint(Reset(a), epoch + 1, evs[1..]);
      } else {
        var (b, al) := Serve(a, epoch, evs[0].size);
        RunBlocksDisjoint(al.arena, b.epoch, evs[1..]);
        var rest := Run(al.arena, b.epoch, evs[1..]);
        ServeKeepsSound(a, epoch, evs[0].size, rest);
      }
    }
  }

  /** Replaying two traces one after the other is replaying their concatenation. */
  lemma {:induction false} RunAppend(a: Arena, epoch: nat, xs: seq<Event>, ys: seq<Event>)
    requires a.Valid()
    requires WellFormed(xs) && WellFormed(ys)
    ensures WellFormed(xs + ys)
    ensures Run(a, epoch, xs + ys) ==
            Trace(Run(Run(a, epoch, xs).arena, Run(a, epoch, xs).epoch, ys).arena,
                  Run(Run(a, epoch, xs).arena, Run(a, epoch, xs).epoch, ys).epoch,
                  Run(a, epoch, xs).blocks + Run(Run(a, epoch, xs).arena, Run(a, epoch, xs).epoch, ys).blocks,
                  Run(a, epoch, xs).warnings + Run(Run(a, epoch, xs).arena, Run(a, epoch, xs).epoch, ys).warnings)
    decreases |xs|
  {
    assert WellFormed(xs + ys) by {
      forall i | 0 <= i < |xs + ys| ensures (xs + ys)[i].Request? ==> 0 < (xs + ys)[i].size <= Capacity {
        if i < |xs| { assert (xs + ys)[i] == xs[i]; } else { assert (xs + ys)[i] == ys[i - |xs|]; }
      }
    }
    if |xs| == 0 {
      assert xs + ys == ys;
    } else {
      WellFormedTail(xs);
      var zs := xs + ys;
      assert zs[0] == xs[0];
      assert zs[1..] == xs[1..] + ys;
      if xs[0].Tick? {
        RunAppend(Reset(a), epoch + 1, xs[1..], ys);
      } else {
        var (b, al) := Serve(a, epoch, xs[0].size);
        RunAppend(al.arena, b.epoch, xs[1..], ys);
        var t1 := Run(al.arena, b.epoch, xs[1..]);
        assert Run(a, epoch, xs).blocks == [b] + t1.blocks;
        assert ([b] + t1.blocks) + Run(t1.arena, t1.epoch, ys).blocks == [b] + (t1.blocks + Run(t1.arena, t1.epoch, ys).blocks);
      }
    }
  }

  /** `n` copies of the same request. */
  function Requests(n: nat, size: nat): (evs: seq<Event>)
    ensures |evs| == n
    ensures forall i :: 0 <= i < n ==> evs[i] == Request(size)
  {
    seq(n, _ => Request(size))
  }

  /** The request size of the worked example: a sixteenth of the buffer. */
  const ExampleSize: nat := 0x4000

  /** `k` example-sized blocks of one epoch laid end to end from offset 0. */
  function Laid(epoch: nat, k: nat): (bs: seq<Block>)
    ensures |bs| == k
    ensures forall i :: 0 <= i < k ==> bs[i] == Block(epoch, i * ExampleSize, ExampleSize)
  {
    if k == 0 then [] else Laid(epoch, k - 1) + [Block(epoch, (k - 1) * ExampleSize, ExampleSize)]
  }

  /** From an empty epoch, `k` example requests that fit are laid end to end. */
  lemma {:induction false} FillFromEmpty(a: Arena, epoch: nat, k: nat)
    requires a.Valid() && a.cursor == 0
    requires k <= 15
    ensures Run(a, epoch, Requests(k, ExampleSize)) == Trace(a.(cursor := k * ExampleSize), epoch, Laid(epoch, k), 0)
    decreases k
  {
    if k > 0 {
      FillFromEmpty(a, epoch, k - 1);
      RunAppend(a, epoch, Requests(k - 1, ExampleSize), [Request(ExampleSize)]);
      assert Requests(k - 1, ExampleSize) + [Request(ExampleSize)] == Requests(k, ExampleSize);
      var t := Run(a, epoch, Requests(k - 1, ExampleSize));
      assert [Request(ExampleSize)][1..] == [];
      assert Run(t.arena, t.epoch, [Request(ExampleSize)]) ==
             Trace(a.(cursor := k * ExampleSize), epoch, [Block(epoch, (k - 1) * ExampleSize, ExampleSize)], 0);
    }
  }

  /**
    Worked example: starting an epoch with requests of 0x4000 bytes, fifteen
    fit, the sixteenth rolls over exactly once to offset 0 of the next epoch
    (warning iff the warning had not been printed for the starting stamp), and
    the seventeenth is placed at 0x4000.
  */
  lemma SixteenthRequestRollsOver(a: Arena, epoch: nat)
    requires a.Valid() && a.cursor == 0
    ensures Run(a, epoch, Requests(17, ExampleSize)) ==
            Trace(Arena(NextStamp(a.stamp), 2 * ExampleSize, a.stamp), epoch + 1,
                  Laid(epoch, 15) + [Block(epoch + 1, 0, ExampleSize), Block(epoch + 1, ExampleSize, ExampleSize)],
                  if a.lastWarned != a.stamp then 1 else 0)
  {
    FillFromEmpty(a, epoch, 15);
    var full := a.(cursor := 15 * ExampleSize);
    RunAppend(a, epoch, Requests(15, ExampleSize), Requests(2, ExampleSize));
    assert Requests(15, ExampleSize) + Requests(2, ExampleSize) == Requests(17, ExampleSize);
    var two := Requests(2, ExampleSize);
    assert two[0] == Request(ExampleSize) && two[1..] == [Request(ExampleSize)];
    assert two[1..][1..] == [];
    // the sixteenth request overflows and starts the next epoch at offset 0
    var (b16, al16) := Serve(full, epoch, ExampleSize);
    assert !Fits(full, ExampleSize);
    assert b16 == Block(epoch + 1, 0, ExampleSize);
    assert al16.arena == Arena(NextStamp(a.stamp), ExampleSize, a.stamp);
    // the seventeenth fits behind it
    var (b17, al17) := Serve(al16.arena, epoch + 1, ExampleSize);
    assert Fits(al16.arena, ExampleSize);
    assert b17 == Block(epoch + 1, ExampleSize, ExampleSize);
    assert Run(al16.arena, epoch + 1, two[1..]) ==
           Trace(Arena(NextStamp(a.stamp), 2 * ExampleSize, a.stamp), epoch + 1, [b17], 0);
  }
}

=== FILE: snapshot.dfy ===
/**
  The server's snapshot relevance oracle (sv_game.cpp, SV_inSnapshot) and its
  portal-free point-to-point PVS test (SV_inPVSIgnorePortals).

  Collision-model queries, the fog distance and the box-distance test belong
  to other subsystems; they enter as the fields of a World record.
*/
module Snapshot {
  import opened Wrappers

  /** A position (vec3_t); its components are only handed to the world's queries. */
  datatype Vec3 = Vec3(x: real, y: real, z: real)

  /**
    The squared fog-opaque distance, or NoCutoff for "no fog cutoff". The
    source compares its float distance against the double literal
    3.4028235e38, which no float equals, so as written every distance takes
    the box test; NoCutoff is the branch that comparison evidently intends,
    and NoCutoffAgreesWithCutoff states when the two coincide.
  */
  datatype Fog = NoCutoff | Cutoff(distSqrd: real)

  /**
    What the oracle asks of the rest of the server: CM_PointLeafnum,
    CM_LeafCluster, CM_ClusterPVS (a PVS row of bytes, or null), the fog
    setting and BoxDistSqrdExceeds(absmin, absmax, origin, distSqrd).
  */
  datatype World = World(
    pointLeafnum: Vec3 -> int,
    leafCluster: int -> int,
    clusterPvs: int -> Option<seq<bv8>>,
    fog: Fog,
    boxDistSqrdExceeds: (Vec3, Vec3, Vec3, real) -> bool)

  /**
    The entity fields the oracle reads: whether it is linked, its broadcast
    time, its server flags, the clusters it touches (the first numClusters
    entries of clusternums), lastCluster, and its absolute bounds.
  */
  datatype Entity = Entity(
    linked: bool,
    broadcastTime: int,
    svFlags: bv32,
    clusters: seq<int>,
    lastCluster: int,
    absmin: Vec3,
    absmax: Vec3)

  /** Server flag bit 0x1: never send the entity to any client. */
  const NoClientFlag: bv32 := 0x1

  /** Server flag bits 0x8 and 0x10: always send, regardless of visibility. */
  const AlwaysSendFlags: bv32 := 0x18

  /** Cluster `l` has a byte in the PVS row. */
  predicate InRow(pvs: seq<bv8>, l: int) {
    0 <= l && l / 8 < |pvs|
  }

  /** Bit `l` of a PVS row: bit l % 8 of byte l / 8, least significant bit first. */
  function Bit(pvs: seq<bv8>, l: int): bool
    requires InRow(pvs, l)
  {
    pvs[l / 8] & (1 << (l % 8)) != 0
  }

  /** The cluster containing a point. */
  function ClusterOf(w: World, p: Vec3): int {
    w.leafCluster(w.pointLeafnum(p))
  }

  // ---------------------------------------------------------------------
  // SV_inPVSIgnorePortals

  /** The PVS row of p1's cluster, if any, covers p2's cluster. */
  predicate PortalFreeReadable(w: World, p1: Vec3, p2: Vec3) {
    w.clusterPvs(ClusterOf(w, p1)).Some? ==> InRow(w.clusterPvs(ClusterOf(w, p1)).value, ClusterOf(w, p2))
  }

  /**
    SV_inPVSIgnorePortals: p2 is hidden from p1 exactly when p1's cluster has
    a PVS row and p2's cluster bit in it is clear; with no row it fails open.
  */
  function InPvsIgnorePortals(w: World, p1: Vec3, p2: Vec3): (r: bool)
    requires PortalFreeReadable(w, p1, p2)
    ensures w.clusterPvs(ClusterOf(w, p1)).None? ==> r
    ensures !r <==> (exists pvs :: w.clusterPvs(ClusterOf(w, p1)) == Some(pvs) && !Bit(pvs, ClusterOf(w, p2)))
  {
    var mask := w.clusterPvs(ClusterOf(w, p1));
    !(mask.Some? && !Bit(mask.value, ClusterOf(w, p2)))
  }

  // ---------------------------------------------------------------------
  // SV_inSnapshot: the declarative reading

  /** The PVS row of the cluster containing the observer. */
  function ClientPvs(w: World, origin: Vec3): Option<seq<bv8>> {
    w.clusterPvs(ClusterOf(w, origin))
  }

  /** None of the flag stages decided, and the entity touches at least one cluster. */
  predicate ReachesPvsStage(e: Entity) {
    && e.linked
    && e.broadcastTime == 0
    && e.svFlags & NoClientFlag == 0
    && e.svFlags & AlwaysSendFlags == 0
    && |e.clusters| > 0
  }

  /** The PVS row covers every listed cluster and, when a fallback scan may run, every cluster up to lastCluster. */
  predicate PvsCovers(pvs: seq<bv8>, e: Entity) {
    && (forall k :: 0 <= k < |e.clusters| ==> InRow(pvs, e.clusters[k]))
    && (e.lastCluster != 0 ==> e.lastCluster < 8 * |pvs|)
  }

  /**
    The bytes the oracle reads exist: an entity that reaches the PVS stage
    needs a (non-null) PVS row for the observer's cluster, since the source
    dereferences it without a check.
  */
  predicate Readable(w: World, origin: Vec3, e: Entity) {
    ReachesPvsStage(e) ==> ClientPvs(w, origin).Some? && PvsCovers(ClientPvs(w, origin).value, e)
  }

  /** Some listed cluster is visible. */
  ghost predicate DirectHit(pvs: seq<bv8>, clusters: seq<int>)
    requires forall k :: 0 <= k < |clusters| ==> InRow(pvs, clusters[k])
  {
    exists k :: 0 <= k < |clusters| && Bit(pvs, clusters[k])
  }

  /** Cluster `at` is the first cluster at or after `from` whose bit is set. */
  ghost predicate FirstSetBitAt(pvs: seq<bv8>, from: int, at: int) {
    && 0 <= from <= at
    && InRow(pvs, at)
    && Bit(pvs, at)
    && forall m :: from <= m < at ==> !Bit(pvs, m)
  }

  /** Some cluster in from .. to has its bit set. */
  ghost predicate AnySetBitIn(pvs: seq<bv8>, from: int, to: int)
    requires 0 <= from && to < 8 * |pvs|
  {
    exists m :: from <= m <= to && Bit(pvs, m)
  }

  /** The last listed cluster, where the fallback scan starts. */
  function LastListed(e: Entity): int
    requires |e.clusters| > 0
  {
    e.clusters[|e.clusters| - 1]
  }

  /**
    The cluster stage of SV_inSnapshot as the source writes it: a visible
    listed cluster passes; otherwise, with a nonzero lastCluster, the
    forward scan from the last listed cluster fails the stage only when the
    first set bit it meets is exactly lastCluster.
  */
  ghost predicate ClusterStagePasses(pvs: seq<bv8>, e: Entity)
    requires |e.clusters| > 0 && PvsCovers(pvs, e)
  {
    || DirectHit(pvs, e.clusters)
    || (e.lastCluster != 0 && !FirstSetBitAt(pvs, LastListed(e), e.lastCluster))
  }

  /**
    The cluster stage as the scan is evidently meant: with no visible listed
    cluster, pass when some cluster from the last listed one up to
    lastCluster is visible.
  */
  ghost predicate ClusterStagePassesIntended(pvs: seq<bv8>, e: Entity)
    requires |e.clusters| > 0 && PvsCovers(pvs, e)
  {
    || DirectHit(pvs, e.clusters)
    || (&& e.lastCluster != 0
        && LastListed(e) <= e.lastCluster
        && AnySetBitIn(pvs, LastListed(e), e.lastCluster))
  }

  /** The fog stage: no cutoff, or the entity's bounds are within the cutoff. */
  predicate FogPasses(w: World, origin: Vec3, e: Entity) {
    match w.fog
    case NoCutoff => true
    case Cutoff(d) => !w.boxDistSqrdExceeds(e.absmin, e.absmax, origin, d)
  }

  /** Whether the entity goes into the observer's snapshot, stage by stage. */
  ghost predicate Relevant(w: World, origin: Vec3, e: Entity)
    requires Readable(w, origin, e)
  {
    && e.linked
    && (|| e.broadcastTime != 0
        || (&& e.svFlags & NoClientFlag == 0
            && (|| e.svFlags & AlwaysSendFlags != 0
                || (&& |e.clusters| > 0
                    && ClusterStagePasses(ClientPvs(w, origin).value, e)
                    && FogPasses(w, origin, e)))))
  }

  // ---------------------------------------------------------------------
  // SV_inSnapshot: the loops

  /**
    The first loop of SV_inSnapshot: walk the listed clusters, stopping at
    the first visible one. `l` is the last cluster examined.
  */
  method FindListedHit(pvs: seq<bv8>, clusters: seq<int>) returns (i: nat, l: int)
    requires forall k :: 0 <= k < |clusters| ==> InRow(pvs, clusters[k])
    ensures i <= |clusters|
    ensures i < |clusters| <==> DirectHit(pvs, clusters)
    ensures i < |clusters| ==> l == clusters[i] && Bit(pvs, l)
    ensures i < |clusters| ==> forall k :: 0 <= k < i ==> !Bit(pvs, clusters[k])
    ensures i == |clusters| && |clusters| > 0 ==> l == clusters[|clusters| - 1]
  {
    l := 0;
    i := 0;
    while i < |clusters|
      invariant i <= |clusters|
      invariant forall k :: 0 <= k < i ==> !Bit(pvs, clusters[k])
      invariant 0 < i ==> l == clusters[i - 1]
    {
      l := clusters[i];
      if Bit(pvs, l) {
        break;
      }
      i := i + 1;
    }
  }

  /**
    The fallback loop of SV_inSnapshot: advance from `from` while the
    cluster is at most `last` and its bit is clear. It stops on the first set
    bit of from .. last, or just past `last` when there is none.
  */
  method ScanForward(pvs: seq<bv8>, from: int, last: int) returns (l: int)
    requires 0 <= from
    requires from <= last ==> last < 8 * |pvs|
    ensures from <= l
    ensures l <= last ==> FirstSetBitAt(pvs, from, l)
    ensures from <= last && last < l ==> l == last + 1 && !AnySetBitIn(pvs, from, last)
    ensures last < from ==> l == from
  {
    l := from;
    while l <= last && !Bit(pvs, l)
      invariant from <= l
      invariant from <= last ==> l <= last + 1
      invariant last < from ==> l == from
      invariant forall m :: from <= m < l ==> !Bit(pvs, m)
      decreases last - l
    {
      l := l + 1;
    }
  }

  /** The cluster stage of SV_inSnapshot, as written. */
  method ClusterStage(pvs: seq<bv8>, e: Entity) returns (pass: bool)
    requires |e.clusters| > 0 && PvsCovers(pvs, e)
    ensures pass <==> ClusterStagePasses(pvs, e)
  {
    var i, l := FindListedHit(pvs, e.clusters);
    if i == |e.clusters| {
      if e.lastCluster == 0 {
        return false;
      }
      l := ScanForward(pvs, l, e.lastCluster);
      if l == e.lastCluster {
        return false;
      }
    }
    return true;
  }

  /** The cluster stage with the end-of-scan test the fallback evidently intends (`l > lastCluster`). */
  method ClusterStageIntended(pvs: seq<bv8>, e: Entity) returns (pass: bool)
    requires |e.clusters| > 0 && PvsCovers(pvs, e)
    ensures pass <==> ClusterStagePassesIntended(pvs, e)
    ensures !DirectHit(pvs, e.clusters) && e.lastCluster != 0 && LastListed(e) <= e.lastCluster ==>
              (pass <==> exists m :: LastListed(e) <= m <= e.lastCluster && Bit(pvs, m))
  {
    var i, l := FindListedHit(pvs, e.clusters);
    if i == |e.clusters| {
      if e.lastCluster == 0 {
        return false;
      }
      l := ScanForward(pvs, l, e.lastCluster);
      if l > e.lastCluster {
        return false;
      }
    }
    return true;
  }

  /**
    SV_inSnapshot: whether entity `e` is relevant to an observer at
    `origin`. The stages decide in this order: unlinked entities never,
    broadcast ones always (even with the no-client flag), no-client ones
    never, always-send ones always, entities touching no cluster never;
    then the cluster stage, then the fog cutoff.
  */
  method InSnapshot(w: World, origin: Vec3, e: Entity) returns (r: bool)
    requires Readable(w, origin, e)
    ensures r <==> Relevant(w, origin, e)
    ensures !e.linked ==> !r
    ensures e.linked && e.broadcastTime != 0 ==> r
    ensures e.linked && e.broadcastTime == 0 && e.svFlags & NoClientFlag != 0 ==> !r
    ensures e.linked && e.broadcastTime == 0 && e.svFlags & NoClientFlag == 0 && e.svFlags & AlwaysSendFlags != 0 ==> r
    ensures (e.linked && e.broadcastTime == 0 && e.svFlags & NoClientFlag == 0 && e.svFlags & AlwaysSendFlags == 0
             && |e.clusters| == 0) ==> !r
    ensures ReachesPvsStage(e) && ClusterStagePasses(ClientPvs(w, origin).value, e) ==> (r <==> FogPasses(w, origin, e))
    ensures ReachesPvsStage(e) && !ClusterStagePasses(ClientPvs(w, origin).value, e) ==> !r
  {
    if !e.linked {
      return false;
    }
    if e.broadcastTime != 0 {
      return true;
    }
    if e.svFlags & NoClientFlag != 0 {
      return false;
    }
    if e.svFlags & AlwaysSendFlags != 0 {
      return true;
    }
    var leafnum := w.pointLeafnum(origin);
    if |e.clusters| == 0 {
      return false;
    }
    var clientCluster := w.leafCluster(leafnum);
    var pvs := w.clusterPvs(clientCluster).value;
    var pass := ClusterStage(pvs, e);
    if !pass {
      return false;
    }
    match w.fog
    case NoCutoff =>
      r := true;
    case Cutoff(d) =>
      r := !w.boxDistSqrdExceeds(e.absmin, e.absmax, origin, d);
  }

  // ---------------------------------------------------------------------
  // Scenarios and the fallback scan's end test

  /**
    Replacing a fog distance by NoCutoff changes the verdict exactly for an
    entity that reaches the fog stage, passes the cluster stage and lies
    beyond that distance; everywhere else the two settings agree.
  */
  lemma NoCutoffAgreesWithCutoff(w: World, origin: Vec3, e: Entity, d: real)
    requires Readable(w, origin, e)
    requires w.fog == Cutoff(d)
    ensures Readable(w.(fog := NoCutoff), origin, e)
    ensures Relevant(w, origin, e) != Relevant(w.(fog := NoCutoff), origin, e)
            <==> && ReachesPvsStage(e)
                 && ClusterStagePasses(ClientPvs(w, origin).value, e)
                 && w.boxDistSqrdExceeds(e.absmin, e.absmax, origin, d)
  {
  }

  /**
    Fallback scan that finds a later cluster: the entity lists only cluster
    5, whose bit is clear, lastCluster is 8 and bit 7 is set; the scan stops
    on 6 or 7, neither of which is lastCluster, so the stage passes.
  */
  lemma FallbackFindsLaterCluster(pvs: seq<bv8>, e: Entity)
    requires e.clusters == [5] && e.lastCluster == 8 && |pvs| >= 2
    requires !Bit(pvs, 5) && Bit(pvs, 7)
    ensures ClusterStagePasses(pvs, e)
    ensures ClusterStagePassesIntended(pvs, e)
  {
  }

  /**
    As written, a scan that finds no set bit runs past lastCluster and the
    stage passes: cluster 5 listed, lastCluster 8, bits 5 to 8 all clear.
    The evidently intended scan rejects this entity.
  */
  lemma FallbackWithNothingVisiblePasses(pvs: seq<bv8>, e: Entity)
    requires e.clusters == [5] && e.lastCluster == 8 && |pvs| >= 2
    requires !Bit(pvs, 5) && !Bit(pvs, 6) && !Bit(pvs, 7) && !Bit(pvs, 8)
    ensures ClusterStagePasses(pvs, e)
    ensures !ClusterStagePassesIntended(pvs, e)
  {
  }

  /**
    As written, an entity whose only visible cluster in the scanned range is
    lastCluster itself is rejected: cluster 5 listed, lastCluster 8, bits 5
    to 7 clear and bit 8 set. The evidently intended scan accepts it.
  */
  lemma VisibleLastClusterRejected(pvs: seq<bv8>, e: Entity)
    requires e.clusters == [5] && e.lastCluster == 8 && |pvs| >= 2
    requires !Bit(pvs, 5) && !Bit(pvs, 6) && !Bit(pvs, 7) && Bit(pvs, 8)
    ensures !ClusterStagePasses(pvs, e)
    ensures ClusterStagePassesIntended(pvs, e)
  {
  }

  /**
    The two end tests disagree exactly when the scan has a range to cover
    and no listed cluster is visible: as written passes and intended fails
    when the range holds no set bit, and the other way round when its first
    set bit is lastCluster itself.
  */
  lemma AsWrittenVersusIntended(pvs: seq<bv8>, e: Entity)
    requires |e.clusters| > 0 && PvsCovers(pvs, e)
    requires e.lastCluster != 0 && LastListed(e) <= e.lastCluster && !DirectHit(pvs, e.clusters)
    ensures ClusterStagePasses(pvs, e) && !ClusterStagePassesIntended(pvs, e) <==>
              !AnySetBitIn(pvs, LastListed(e), e.lastCluster)
    ensures !ClusterStagePasses(pvs, e) && ClusterStagePassesIntended(pvs, e) <==>
              FirstSetBitAt(pvs, LastListed(e), e.lastCluster)
  {
  }

  /**
    For an entity listed in exactly p2's cluster with no fallback scan, the
    cluster stage of SV_inSnapshot and SV_inPVSIgnorePortals agree whenever
    the observer's cluster has a PVS row.
  */
  lemma ClusterStageMatchesPortalFree(w: World, p1: Vec3, p2: Vec3, e: Entity)
    requires w.clusterPvs(ClusterOf(w, p1)).Some?
    requires e.clusters == [ClusterOf(w, p2)] && e.lastCluster == 0
    requires PvsCovers(w.clusterPvs(ClusterOf(w, p1)).value, e)
    ensures PortalFreeReadable(w, p1, p2)
    ensures ClusterStagePasses(w.clusterPvs(ClusterOf(w, p1)).value, e) <==> InPvsIgnorePortals(w, p1, p2)
  {
    var pvs := w.clusterPvs(ClusterOf(w, p1)).value;
    assert e.clusters[0] == ClusterOf(w, p2);
    if Bit(pvs, ClusterOf(w, p2)) {
      assert DirectHit(pvs, e.clusters);
    }
  }
}

=== FILE: wrappers.dfy ===
/** A possibly absent value, shared by the other modules. */
module Wrappers {

  /** A value that may be absent; stands in for a nullable pointer. */
  datatype Option<+T> = None | Some(value: T)
}

=== FILE: xmodel_bones.dfy ===
/**
  Bone lookup by name in a model's bone-name table (xmodel_utils.cpp,
  XModelGetBoneIndex).
*/
module XModelBones {
  import opened IntTypes

  /** DOBJ_MAX_PARTS: the most bones an animated object can have. */
  const DObjMaxParts: nat := 128

  /** `pos + offset` computed in unsigned 32-bit arithmetic and stored into a uint8_t. */
  function StoredIndex(pos: nat, offset: u32): (r: u8)
    ensures r == (pos + offset) % 0x100
  {
    ((pos + offset) % U32Modulus) % 0x100
  }

  /** `pos` is the lowest position among 0 .. `bound` whose name is `name`. */
  ghost predicate LowestMatch(names: seq<u16>, name: u32, bound: nat, pos: nat)
    requires bound < |names|
  {
    && pos <= bound
    && names[pos] == name
    && forall q :: 0 <= q < pos ==> names[q] != name
  }

  /**
    XModelGetBoneIndex as written: positions 0 .. numBones are searched,
    one more than the model's bones, so the table must have numBones + 1
    entries. On a match it returns 1 and stores the position plus `offset`
    truncated to a byte; otherwise it returns 0 and the stored index is
    unchanged.
  */
  method GetBoneIndex(names: seq<u16>, numBones: nat, name: u32, offset: u32, index: u8)
    returns (found: int, newIndex: u8)
    requires numBones < DObjMaxParts
    requires numBones < |names|
    ensures found == 0 || found == 1
    ensures found == 1 <==> exists p :: 0 <= p <= numBones && names[p] == name
    ensures found == 1 ==> exists p: nat :: LowestMatch(names, name, numBones, p) && newIndex == (p + offset) % 0x100
    ensures found == 0 ==> newIndex == index
  {
    var i := 0;
    while name != names[i]
      invariant i <= numBones
      invariant forall q :: 0 <= q < i ==> names[q] != name
      decreases numBones - i
    {
      if i >= numBones {
        return 0, index;
      }
      i := i + 1;
    }
    assert LowestMatch(names, name, numBones, i);
    return 1, StoredIndex(i, offset);
  }

  /**
    A match one past the model's last bone is accepted: a model with one
    bone whose table continues with the name searched for yields position 1.
  */
  method MatchPastLastBone() returns (found: int, newIndex: u8)
    ensures found == 1 && newIndex == 1
  {
    var names: seq<u16> := [7, 9];
    found, newIndex := GetBoneIndex(names, 1, 9, 0, 0);
    assert names[1] == 9;
    ghost var p: nat :| LowestMatch(names, 9, 1, p) && newIndex == (p + 0) % 0x100;
    assert names[0] == 7;
  }

  /**
    The lookup with the bound it evidently intends: only the model's
    numBones bones, positions 0 .. numBones - 1, are searched, and a match
    always names one of them.
  */
  method GetBoneIndexBounded(names: seq<u16>, numBones: nat, name: u32, offset: u32, index: u8)
    returns (found: int, newIndex: u8, pos: nat)
    requires numBones < DObjMaxParts
    requires numBones <= |names|
    ensures found == 0 || found == 1
    ensures found == 1 <==> exists p :: 0 <= p < numBones && names[p] == name
    ensures found == 1 ==> pos < numBones && names[pos] == name && newIndex == (pos + offset) % 0x100
    ensures found == 1 ==> forall q :: 0 <= q < pos ==> names[q] != name
    ensures found == 0 ==> newIndex == index
  {
    pos := 0;
    while pos < numBones
      invariant pos <= numBones
      invariant forall q :: 0 <= q < pos ==> names[q] != name
    {
      if names[pos] == name {
        return 1, StoredIndex(pos, offset), pos;
      }
      pos := pos + 1;
    }
    return 0, index, pos;
  }
}
